=== FILE: README.md ===
# Property-listing viewer: filter, pagination and fetch state machines

This project models, in Dafny, the deterministic core of a React viewer for
real-estate listings:

- the **record filter** of the principal page, which keeps a listing when
  its name, description, country, city and address contain the matching
  filter text case-insensitively and its price text contains the price
  filter verbatim;
- the **pagination** derived from the filtered list: the page window taken
  with `slice`, the page count `Math.ceil(total / size)`, the guarded page
  setter and the first/previous/next/last buttons, the page-size selector
  (5, 10, 16, 25 or 50 rows);
- the **detail dialog** open/close transitions and the main search that
  re-queries the server;
- the **`useFetch` hook**: its initial state, the request URL
  (`apiUrl`, or `apiUrl + "/filtered?name=" + encodeURIComponent(text)` for a
  non-empty search text) and the `loading`/`error`/`data` transitions for each
  way a request can end.

Modules, one per concern: `Wrappers` (Option/Result), `Seqs` (order-preserving
sub-sequences and `filter` over any test), `Text` (`includes` and `toLowerCase`), `Records` (listings,
filters and the filter), `Pagination` (page arithmetic), `Fetch` (the hook)
and `PrincipalPage` (the page state, one transition per handler together with
the effects it triggers, an `Event`/`Step`/`Run` closure and the invariant
every reachable state satisfies).

Behaviour of the code worth noting:

- A listing whose name, description, `location`, country, city or address
  is missing is rejected even when that filter is empty, because the
  optional chain yields `undefined`, which is falsy.
  `Records.NameFilterScenario` shows the consequence: two sample listings
  without a description are both rejected by the name filter "casa".
- The recompute effect resets the page to 1 only when data has been loaded
  and a dependency actually changed: re-entering the same filter value
  changes nothing (`PrincipalPage.SetFilter`).
- The page count is 0 for an empty list, so page 1 is then outside
  `[1, totalPages]`; the invariant is `1 <= page <= max(1, totalPages)`.

## Model

| member | source | states |
|---|---|---|
| Seqs.Keep | src/components/PrincipalPage.jsx:34 | `Array.prototype.filter`: an element is kept exactly when it is in the input and passes the test; every kept element passes; the result is no longer than the input |
| Seqs.KeepCount | src/components/PrincipalPage.jsx:34 | `filter` keeps each passing element exactly as often as it occurs and drops every other element |
| Seqs.KeepIsSubsequence | src/components/PrincipalPage.jsx:34 | `filter` keeps the input's order |
| Seqs.KeepAll | src/components/PrincipalPage.jsx:34 | `filter` returns its input when every element passes |
| Seqs.KeepMonotone | src/components/PrincipalPage.jsx:34 | a stricter test keeps a sub-sequence of what a looser one keeps |
| Text.ContainsIff | src/components/PrincipalPage.jsx:36-41 | the recursive `includes` holds exactly when the needle occurs at some index of the text |
| Text.ContainsTransitive | src/components/PrincipalPage.jsx:36-41 | substring containment is transitive |
| Text.LowerPreservesContains | src/components/PrincipalPage.jsx:36-41 | lower-casing text and needle one character at a time keeps an occurrence (see "## Left out" for JavaScript's context-dependent lower-casing) |
| Records.Filter | src/components/PrincipalPage.jsx:34-43 | a record is in the result exactly when it is in the data and passes all six tests; every kept record passes them; the result is no longer than the data |
| Records.FilterCounts | src/components/PrincipalPage.jsx:34-43 | each matching record is kept exactly as many times as it occurs in the data, and no other record is kept |
| Records.FilterIsSubsequence | src/components/PrincipalPage.jsx:34-43 | the filtered list is an order-preserving sub-sequence of the data |
| Records.FilterKeepsAllIff | src/components/PrincipalPage.jsx:34-43 | the filter returns the data unchanged if and only if every record matches |
| Records.NoFiltersKeepCompleteRecords | src/components/PrincipalPage.jsx:36-41 | with six empty filters, records with all five text members present all pass, whatever their price |
| Records.IncompleteRecordExcluded | src/components/PrincipalPage.jsx:36-41 | a record lacking name, description, country, city or address is rejected for every filter value |
| Records.PriceTestIsRaw | src/components/PrincipalPage.jsx:38 | a falsy price passes exactly when the price filter is empty; a truthy price passes exactly when its raw text includes the filter, without case folding |
| Records.MatchesNarrow | src/components/PrincipalPage.jsx:36-41 | under character-by-character lower-casing, a record passing filters that each include the looser filters passes the looser ones |
| Records.FilterMonotone | src/components/PrincipalPage.jsx:34-43 | under character-by-character lower-casing, tighter filters keep a sub-sequence of what looser filters keep, hence never more records |
| Records.AppendToFilterNeverGrows | src/components/PrincipalPage.jsx:36-41 | under character-by-character lower-casing, appending characters to one filter never grows the filtered list |
| Records.NameFilterScenario | src/components/PrincipalPage.jsx:34-43 | "casa" keeps "Casa Sol" and drops "Depto Luna"; listings lacking a description are all dropped |
| Pagination.JsSliceOfRange | src/components/PrincipalPage.jsx:51 | with non-negative bounds `slice` yields the items from `start` to `end` cut off at the length, or nothing when that range is empty, never more than `end - start` items |
| Pagination.TotalPages | src/components/PrincipalPage.jsx:52-53 | the page count is the least number of pages of the given size that hold all items, and 0 exactly for no items |
| Pagination.WindowIsBlock | src/components/PrincipalPage.jsx:49-51 | page `p >= 1` shows `items[(p-1)*n .. min(p*n, len)]` when that start is in range and nothing otherwise, never more than `n` items |
| Pagination.WindowNonEmptyIff | src/components/PrincipalPage.jsx:49-53 | page `p >= 1` shows something exactly when `p <= totalPages` |
| Pagination.PaginatePrefix | src/components/PrincipalPage.jsx:49-51 | pages 1 to k together show exactly the first `k * n` items |
| Pagination.PagesCoverItems | src/components/PrincipalPage.jsx:49-53 | pages 1 to totalPages together show every item exactly once, in order |
| Pagination.GuardedPageInRange | src/components/PrincipalPage.jsx:55-59 | the guarded setter keeps the page in `[1, max(1, totalPages)]` |
| Fetch.RequestUrl | src/useFetch.js:12-18 | the URL starts with the base URL and equals it exactly when the search text is absent or empty; for any other text, whitespace included, the encoded text can be read back after `/filtered?name=` |
| Fetch.RequestUrlRoundTrip | src/useFetch.js:12-18 | the encoded search text can be read back from a search URL, and a plain URL carries none |
| Fetch.RequestUrlInjective | src/useFetch.js:15-18 | with an injective encoder, distinct search texts give distinct URLs, none equal to the base URL |
| Fetch.Begin | src/useFetch.js:10-11 | starting a request sets loading, clears the error and keeps the data |
| Fetch.Settle | src/useFetch.js:20-36 | success replaces the data wholesale; a non-OK status, a decode failure or a network failure sets the error and keeps the data; an abort changes neither; loading always ends |
| Fetch.FetchCycle | src/useFetch.js:9-36 | after a whole request: not loading, an error exactly for a non-abort failure, data changed only by a success |
| Fetch.DataNeverCleared | src/useFetch.js:22-32 | once loaded, the data is never cleared by a later request |
| PrincipalPage.Mount | src/useFetch.js:4-42 | mounting requests the base URL and starts loading with no data and no error; the page's own initial values (src/components/PrincipalPage.jsx:13-24) are page 1, 5 rows, empty filters, an empty main search text, an empty list and a closed dialog |
| PrincipalPage.MountValid | src/components/PrincipalPage.jsx:13-24 | the initial page state satisfies the page invariant |
| PrincipalPage.Recompute | src/components/PrincipalPage.jsx:26-47 | with data loaded, the filtered list becomes the filter of the data (its matching records, in order) and the page resets to 1; without data nothing changes |
| PrincipalPage.SetFilter | src/components/PrincipalPage.jsx:32-47 | editing one filter changes only that filter; when the value changed and data is loaded it recomputes the list and resets the page to 1; re-entering the same value changes nothing; without data only the filter changes |
| PrincipalPage.SetMainQuery | src/components/PrincipalPage.jsx:103 | typing into the main search input sets the search text and changes nothing else |
| PrincipalPage.TypedTextIsSearched | src/components/PrincipalPage.jsx:80-83 | the next main search requests exactly the typed text, keeps the filters, and typing keeps the page invariant |
| PrincipalPage.HandlePageChange | src/components/PrincipalPage.jsx:55-59 | the page becomes k exactly when `1 <= k <= totalPages`; otherwise the state is unchanged |
| PrincipalPage.HandleItemsPerPageChange | src/components/PrincipalPage.jsx:61-65 | the page size becomes the chosen size and the page 1; filters and list are untouched |
| PrincipalPage.HandleMainFilterSearch | src/components/PrincipalPage.jsx:80-83 | a main search requests the URL for the search text, starts loading and resets the page to 1, leaving the six filters alone |
| PrincipalPage.FetchSettled | src/useFetch.js:20-36 | a successful response recomputes the list from the new data under the current filters and resets the page; any other outcome touches only the fetch state |
| PrincipalPage.HandleOpenDialog | src/components/PrincipalPage.jsx:85-88 | opening selects the record and opens the dialog, nothing else changes |
| PrincipalPage.HandleCloseDialog | src/components/PrincipalPage.jsx:90-93 | closing clears the selection and closes the dialog, nothing else changes |
| PrincipalPage.StepPreservesValid | src/components/PrincipalPage.jsx:32-93 | every handler keeps the page in `[1, max(1, totalPages)]` and the filtered list equal to the filter of the loaded data |
| PrincipalPage.RunPreservesValid | src/components/PrincipalPage.jsx:32-93 | any sequence of handlers keeps the invariant |
| PrincipalPage.Reachable | src/components/PrincipalPage.jsx:44-70 | in every reachable state the page is in range, the filtered list is an ordered sub-sequence of the data whose records all pass the filters, the page shows at most `itemsPerPage` records and shows some exactly when the filtered list is non-empty |
| PrincipalPage.NoPagesNoNavigation | src/components/PrincipalPage.jsx:55-70 | with no pages, every navigation is a no-op |
| PrincipalPage.NavigationBoundaries | src/components/PrincipalPage.jsx:67-70 | previous from page 1 and next from the last page are no-ops; first and last land on 1 and on the page count |
| PrincipalPage.PageChangeIdempotent | src/components/PrincipalPage.jsx:55-59 | asking for the same page twice equals asking once |
| PrincipalPage.TwelveItemsScenario | src/components/PrincipalPage.jsx:49-70 | twelve records at five per page make three pages; page 4 is refused and "last" goes to 3 |
| PrincipalPage.ResetsKeepFilters | src/components/PrincipalPage.jsx:61-83 | a page-size change and a main search both reset the page to 1 and keep every filter |
| PrincipalPage.MainSearchThenSuccess | src/components/PrincipalPage.jsx:80-83 | a main search then a success requests the right URL, replaces the data, clears loading and error, applies the unchanged filters to the new data and shows page 1 |
| PrincipalPage.FailureKeepsData | src/useFetch.js:22-32 | a failed request sets the error and keeps the data, the filtered list and the page |
| PrincipalPage.DialogRoundTrip | src/components/PrincipalPage.jsx:85-93 | opening then closing equals closing alone, and restores a page whose dialog was closed |

## Left out

- The network call, `response.json()` and the `process.env` lookup: the base URL is part of `Fetch.Config` and each request's result is an `Outcome` given as input.
- `encodeURIComponent` (section 18.2.6.5 of ECMA-262, 2015 edition; percent-encoding per section 2.1 of RFC 3986) is the `encode` function of `Fetch.Config`, not modelled further.
- Full Unicode `toLowerCase`: `Text.LowerChar` maps only the ASCII letters, and `Text.Lower` maps each character on its own. JavaScript's `toLowerCase` also applies the context-dependent Final_Sigma rule of Unicode SpecialCasing.txt (section 22.1.3.27 of ECMA-262): a capital sigma ending a word becomes "ς", elsewhere "σ". So `"AΣB".toLowerCase()` is "aσb" while `"AΣ".toLowerCase()` is "aς", and "aσb" does not include "aς".
- Text.LowerPreservesContains: holds for character-by-character lower-casing only. In the program "AΣ" includes "Σ", yet "aς" does not include "σ", so an occurrence need not survive `toLowerCase`.
- Records.MatchesNarrow: holds for character-by-character lower-casing only. In the program a listing named "AΣB" passes the name filter "AΣB" (tighter) but fails the looser "AΣ", because "aσb" does not include "aς".
- Records.FilterMonotone: holds for character-by-character lower-casing only. In the program, with the name filter "AΣB" tighter than "AΣ", the listing "AΣB" is kept by the tighter filter and dropped by the looser one.
- Records.AppendToFilterNeverGrows: holds for character-by-character lower-casing only. In the program, typing "B" after "AΣ" in the name filter brings the listing "AΣB" back, so the filtered list grows.
- JavaScript number-to-string conversion of a price: a price is its text, with `None` for every falsy price (`null`, `undefined`, `0`, `""`).
- A record member of the wrong JavaScript type (a numeric name, say, on which `toLowerCase` throws) and a response body that is not an array: a decoded body is always a sequence of records.
- React scheduling: each handler together with the effects it triggers is one atomic transition; overlapping requests and the order their responses arrive in are not modelled.
- The handlers are total functions even though the page only renders its inputs and buttons when nothing is loading and no error is set. In the code an error is therefore terminal: once it is set (src/components/PrincipalPage.jsx:76-78) no input is rendered, and `fetchData` is otherwise only called at mount, so nothing can start a new request. The model lets handlers run in that state.
- The hook stores the caught `Error` object (src/useFetch.js:32); the model keeps only its message. Rendering that object as a React child (src/components/PrincipalPage.jsx:77), which React rejects, is not modelled.
- `encodeURIComponent` throws a `URIError` on text holding a lone surrogate. The call comes before the `try` (src/useFetch.js:17 and :20), so `loading` would stay true. Dafny strings cannot hold a lone surrogate and `encode` is total, so this path is not modelled.
- All rendering: the inputs, the cards, the "first - last of total" caption, the disabled state of the navigation buttons, the dialog's contents and styling, the feature list. Only the name, price and address inputs are rendered, but the model takes all six filters.

=== FILE: fetch.dfy ===
/** The request-state machine of the `useFetch` hook (src/useFetch.js). The
    network call is not modelled: its result arrives as an `Outcome`. */
module Fetch {
  import opened Wrappers
  import opened Records

  /** The hook's configuration: the base endpoint (read from the process
      environment in the source) and `encodeURIComponent`, whose
      percent-encoding (section 18.2.6.5 of ECMA-262, 2015 edition) is not
      modelled. */
  datatype Config = Config(apiUrl: string, encode: string -> string)

  /** `{ data, loading, error }`; `error` holds the message of the caught
      exception. */
  datatype FetchState = FetchState(data: Option<seq<Property>>, loading: bool, error: Option<string>)

  /** `useState(null)`, `useState(true)`, `useState(null)`. */
  const Initial := FetchState(None, true, None)

  /** Message of the exception thrown for a non-OK response. */
  const HttpErrorMessage := "Error al obtener las propiedades"

  /** Path and parameter appended for a server-side text search. */
  const FilteredPath := "/filtered?name="

  /** How one request ends. A response carries its status and the result of
      decoding its body as JSON; a request that never produces a response
      fails with the thrown exception's message; an aborted request is
      recognised by the `AbortError` exception name. */
  datatype Outcome =
    | Responded(status: int, body: Result<seq<Property>, string>)
    | NetworkFailure(message: string)
    | Aborted

  /** `response.ok`: a status in the range 200 to 299. */
  predicate IsOk(status: int) {
    200 <= status <= 299
  }

  /** The outcome that stores a new record set. */
  predicate Succeeded(o: Outcome) {
    o.Responded? && IsOk(o.status) && o.body.Success?
  }

  /** `if (filterText)`: present and not the empty string. */
  predicate Truthy(text: Option<string>) {
    text.Some? && text.value != ""
  }

  /** The URL `fetchData` requests for the given `filterText`. */
  function RequestUrl(cfg: Config, filterText: Option<string>): (url: string)
    ensures !Truthy(filterText) ==> url == cfg.apiUrl
    ensures Truthy(filterText) ==> url == cfg.apiUrl + FilteredPath + cfg.encode(filterText.value)
    ensures url == cfg.apiUrl <==> !Truthy(filterText)
    ensures cfg.apiUrl <= url
    ensures Truthy(filterText) ==> QueryOf(cfg.apiUrl, url) == Some(cfg.encode(filterText.value))
  {
    if Truthy(filterText) then cfg.apiUrl + FilteredPath + cfg.encode(filterText.value)
    else cfg.apiUrl
  }

  /** Reads back the encoded search text from a request URL, if it is a
      search URL for `apiUrl`. */
  function QueryOf(apiUrl: string, url: string): Option<string> {
    var prefix := apiUrl + FilteredPath;
    if prefix <= url then Some(url[|prefix|..]) else None
  }

  /** The encoded search text can be recovered from every request URL, and a
      plain URL carries none. */
  lemma RequestUrlRoundTrip(cfg: Config, filterText: Option<string>)
    ensures Truthy(filterText) ==> QueryOf(cfg.apiUrl, RequestUrl(cfg, filterText)) == Some(cfg.encode(filterText.value))
    ensures !Truthy(filterText) ==> QueryOf(cfg.apiUrl, RequestUrl(cfg, filterText)) == None
  {
    var url := RequestUrl(cfg, filterText);
    var prefix := cfg.apiUrl + FilteredPath;
    if Truthy(filterText) {
      assert url == prefix + cfg.encode(filterText.value);
      assert url[..|prefix|] == prefix;
      assert url[|prefix|..] == cfg.encode(filterText.value);
    } else {
      assert |prefix| > |url|;
    }
  }

  /** With an injective encoder, different search texts never share a
      request URL, and a search URL is never the plain one. */
  lemma RequestUrlInjective(cfg: Config, t1: Option<string>, t2: Option<string>)
    requires forall a, b :: cfg.encode(a) == cfg.encode(b) ==> a == b
    requires Truthy(t1)
    ensures RequestUrl(cfg, t1) != cfg.apiUrl
    ensures Truthy(t2) && t1 != t2 ==> RequestUrl(cfg, t1) != RequestUrl(cfg, t2)
  {
    RequestUrlRoundTrip(cfg, t1);
    RequestUrlRoundTrip(cfg, t2);
    assert |RequestUrl(cfg, t1)| > |cfg.apiUrl|;
    if Truthy(t2) && t1 != t2 {
      assert cfg.encode(t1.value) != cfg.encode(t2.value);
    }
  }

  /** The synchronous start of `fetchData`: loading, no error, data kept. */
  function Begin(s: FetchState): (r: FetchState)
    ensures r.loading && r.error == None && r.data == s.data
  {
    s.(loading := true, error := None)
  }

  /** The asynchronous end of `fetchData` for outcome `o`. */
  function Settle(s: FetchState, o: Outcome): (r: FetchState)
    ensures !r.loading
    ensures Succeeded(o) ==> r.data == Some(o.body.value) && r.error == s.error
    ensures o.Responded? && !IsOk(o.status) ==> r.data == s.data && r.error == Some(HttpErrorMessage)
    ensures o.Responded? && IsOk(o.status) && o.body.Failure? ==> r.data == s.data && r.error == Some(o.body.error)
    ensures o.NetworkFailure? ==> r.data == s.data && r.error == Some(o.message)
    ensures o.Aborted? ==> r.data == s.data && r.error == s.error
  {
    var r := match o
      case Responded(status, body) =>
        if !IsOk(status) then s.(error := Some(HttpErrorMessage))
        else if body.Failure? then s.(error := Some(body.error))
        else s.(data := Some(body.value))
      case NetworkFailure(message) => s.(error := Some(message))
      case Aborted => s;
    r.(loading := false)
  }

  /** One complete request: afterwards nothing is loading, there is an error
      exactly when the outcome is a failure other than an abort, and the data
      changes only when the outcome delivers a record set. */
  lemma FetchCycle(s: FetchState, o: Outcome)
    ensures var r := Settle(Begin(s), o);
      && !r.loading
      && (r.error.Some? <==> !Succeeded(o) && !o.Aborted?)
      && (r.data != s.data ==> Succeeded(o))
      && (Succeeded(o) ==> r.data == Some(o.body.value))
  {
  }

  /** Once a record set has been loaded it is never cleared again. */
  lemma DataNeverCleared(s: FetchState, o: Outcome)
    requires s.data.Some?
    ensures Settle(s, o).data.Some?
    ensures Begin(s).data.Some?
  {
  }
}

=== FILE: pagination.dfy ===
/** Page arithmetic of the principal page: the page window taken with
    `Array.prototype.slice`, the page count `Math.ceil(total / size)` and
    the guarded page setter. */
module Pagination {

  /** The page sizes offered by the rows-per-page selector. */
  type PageSize = n: nat | n == 5 || n == 10 || n == 16 || n == 25 || n == 50 witness 5

  /** The page size the page starts with. */
  const InitialPageSize: PageSize := 5

  function Min(a: int, b: int): int {
    if a <= b then a else b
  }

  /** How `slice` turns a relative index into a position in a sequence of
      length `len`: negative indices count from the end, and the result is
      clamped to `[0, len]`. */
  function ClampIndex(rel: int, len: nat): (r: nat)
    ensures r <= len
  {
    if rel < 0 then (if len + rel < 0 then 0 else len + rel)
    else if rel > len then len
    else rel
  }

  /** `s.slice(start, end)`. */
  function JsSlice<T>(s: seq<T>, start: int, end: int): seq<T> {
    var a := ClampIndex(start, |s|);
    var b := ClampIndex(end, |s|);
    if a < b then s[a..b] else []
  }

  /** For non-negative bounds `slice` takes the items from `start` up to
      `end`, both cut off at the length, and nothing when that range is
      empty; it never yields more than `end - start` items. */
  lemma JsSliceOfRange<T>(s: seq<T>, start: int, end: int)
    requires 0 <= start && 0 <= end
    ensures start < Min(end, |s|) ==> JsSlice(s, start, end) == s[start..Min(end, |s|)]
    ensures start >= Min(end, |s|) ==> JsSlice(s, start, end) == []
    ensures |JsSlice(s, start, end)| <= if end < start then 0 else end - start
  {
  }

  /** `Math.ceil(count / size)`, exact for the counts a page can hold. */
  function TotalPages(count: nat, size: nat): (r: nat)
    requires size > 0
    ensures count <= r * size
    ensures r > 0 ==> (r - 1) * size < count
    ensures r == 0 <==> count == 0
  {
    var q := (count + size - 1) / size;
    var m := (count + size - 1) % size;
    assert q * size + m == count + size - 1;
    assert (q - 1) * size == q * size - size;
    q
  }

  /** `items.slice((page - 1) * size, page * size)`: the records shown on
      `page`. */
  function PageWindow<T>(items: seq<T>, page: int, size: nat): seq<T> {
    JsSlice(items, page * size - size, page * size)
  }

  /** For a page number of at least 1 the window is the block of at most
      `size` consecutive items starting at `(page - 1) * size`, and empty
      once that start is past the end. */
  lemma WindowIsBlock<T>(items: seq<T>, page: int, size: nat)
    requires page >= 1 && size > 0
    ensures (page - 1) * size < |items| ==>
              PageWindow(items, page, size) == items[(page - 1) * size..Min(page * size, |items|)]
    ensures (page - 1) * size >= |items| ==> PageWindow(items, page, size) == []
    ensures |PageWindow(items, page, size)| <= size
  {
    assert page * size - size == (page - 1) * size;
    assert (page - 1) * size >= 0;
  }

  /** A page number of at least 1 shows something exactly when it does not
      exceed the page count. */
  lemma WindowNonEmptyIff<T>(items: seq<T>, page: int, size: nat)
    requires page >= 1 && size > 0
    ensures PageWindow(items, page, size) != [] <==> page <= TotalPages(|items|, size)
  {
    WindowIsBlock(items, page, size);
    var t := TotalPages(|items|, size);
    var lo := (page - 1) * size;
    assert page * size == lo + size;
    if page <= t {
      MulLe(page - 1, t - 1, size);
      assert lo < |items|;
      assert |PageWindow(items, page, size)| > 0;
    } else {
      MulLe(t, page - 1, size);
      assert lo >= |items|;
    }
  }

  lemma MulLe(a: int, b: int, c: nat)
    requires a <= b
    ensures a * c <= b * c
  {
    assert b * c - a * c == (b - a) * c;
  }

  /** Pages `1..k` shown one after the other. */
  function Paginate<T>(items: seq<T>, size: nat, k: nat): seq<T> {
    if k == 0 then [] else Paginate(items, size, k - 1) + PageWindow(items, k, size)
  }

  /** Pages `1..k` together show exactly the first `k * size` items. */
  lemma {:induction false} PaginatePrefix<T>(items: seq<T>, size: nat, k: nat)
    requires size > 0
    ensures Paginate(items, size, k) == items[..Min(k * size, |items|)]
  {
    PaginatePrefixAt(items, size, k, k * size);
  }

  /** `PaginatePrefix` with the product `k * size` carried as `b`, so that
      each step only subtracts `size` from it. */
  lemma {:induction false} PaginatePrefixAt<T>(items: seq<T>, size: nat, k: nat, b: int)
    requires size > 0 && b == k * size
    ensures Paginate(items, size, k) == items[..Min(b, |items|)]
  {
    if k > 0 {
      MulPred(k, size);
      var a := b - size;
      PaginatePrefixAt(items, size, k - 1, a);
      WindowAfter(items, k, size, a);
      BlocksConcat(items, a, size);
    }
  }

  /** The window of page `k` is the block of up to `size` items at offset
      `a = (k - 1) * size`. */
  lemma WindowAfter<T>(items: seq<T>, k: int, size: nat, a: int)
    requires k >= 1 && size > 0 && a == (k - 1) * size
    ensures PageWindow(items, k, size) == if a < |items| then items[a..Min(a + size, |items|)] else []
  {
    WindowIsBlock(items, k, size);
    MulPred(k, size);
  }

  lemma BlocksConcat<T>(items: seq<T>, a: nat, size: nat)
    ensures items[..Min(a, |items|)] + (if a < |items| then items[a..Min(a + size, |items|)] else [])
            == items[..Min(a + size, |items|)]
  {
    if a < |items| {
      assert items[..a] + items[a..Min(a + size, |items|)] == items[..Min(a + size, |items|)];
    }
  }

  lemma MulPred(k: int, size: int)
    ensures k * size == (k - 1) * size + size
  {
  }

  /** Walking through pages 1 to the page count shows every item exactly
      once, in order. */
  lemma PagesCoverItems<T>(items: seq<T>, size: nat)
    requires size > 0
    ensures Paginate(items, size, TotalPages(|items|, size)) == items
  {
    PaginatePrefix(items, size, TotalPages(|items|, size));
  }

  /** `handlePageChange(target)` on the page number alone: the target is
      taken exactly when it lies in `[1, total]`. */
  function GuardedPage(current: int, target: int, total: nat): int {
    if target >= 1 && target <= total then target else current
  }

  /** The guarded setter keeps a page number that is in range in range. */
  lemma GuardedPageInRange(current: int, target: int, total: nat)
    requires 1 <= current <= Max1(total)
    ensures 1 <= GuardedPage(current, target, total) <= Max1(total)
  {
  }

  /** `max(1, total)`: the largest page number the page can be on. */
  function Max1(total: nat): nat {
    if total == 0 then 1 else total
  }
}

=== FILE: principal_page.dfy ===
/** The view state of the principal page (src/components/PrincipalPage.jsx):
    the per-field filters, the filtered list, the page cursor, the page size
    and the detail dialog, together with the `useFetch` state it reads. Each
    event handler, followed by the effects it triggers, is one transition. */
module PrincipalPage {
  import opened Wrappers
  import opened Seqs
  import opened Records
  import opened Pagination
  import opened Fetch

  datatype PageState = PageState(
    fetch: FetchState,
    filters: Filters,
    mainQuery: string,
    filtered: seq<Property>,
    currentPage: int,
    itemsPerPage: PageSize,
    openDialog: bool,
    selected: Option<Property>)
  {
    /** `Math.ceil(totalItems / itemsPerPage)`. */
    function TotalPagesOf(): nat {
      TotalPages(|filtered|, itemsPerPage)
    }

    /** `currentItems`: the records shown on the current page. */
    function CurrentItems(): seq<Property> {
      PageWindow(filtered, currentPage, itemsPerPage)
    }
  }

  /** The values of the page's `useState` hooks before any effect runs. */
  const InitialPage := PageState(Fetch.Initial, NoFilters, "", [], 1, InitialPageSize, false, None)

  /** Mounting the page: the hook performs one retrieval without a search
      text. Returns the state and the requested URL. */
  function Mount(cfg: Config): (r: (PageState, string))
    ensures r.1 == cfg.apiUrl
    ensures r.0.fetch.loading && r.0.fetch.data == None && r.0.fetch.error == None
    ensures r.0.currentPage == 1 && r.0.itemsPerPage == 5 && r.0.filters == NoFilters && r.0.mainQuery == ""
    ensures r.0.filtered == [] && !r.0.openDialog && r.0.selected == None
  {
    (InitialPage.(fetch := Begin(InitialPage.fetch)), RequestUrl(cfg, None))
  }

  /** The recompute effect: with data loaded, the filtered list is rebuilt
      from it and the page goes back to 1; without data nothing happens. */
  function Recompute(s: PageState): (r: PageState)
    ensures s.fetch.data.Some? ==>
      && r.currentPage == 1
      && IsSubsequence(r.filtered, s.fetch.data.value)
      && (forall p :: p in r.filtered <==> p in s.fetch.data.value && Matches(p, s.filters))
      && r.filtered == Filter(s.fetch.data.value, s.filters)
    ensures s.fetch.data.None? ==> r == s
    ensures r.fetch == s.fetch && r.filters == s.filters && r.mainQuery == s.mainQuery
    ensures r.itemsPerPage == s.itemsPerPage && r.openDialog == s.openDialog && r.selected == s.selected
  {
    if s.fetch.data.Some? then
      FilterIsSubsequence(s.fetch.data.value, s.filters);
      s.(filtered := Filter(s.fetch.data.value, s.filters), currentPage := 1)
    else s
  }

  /** A filter input's `onChange`: the new value replaces that filter. React
      skips the effect when the value did not change. */
  function SetFilter(s: PageState, g: Field, v: string): (r: PageState)
    ensures r.filters == s.filters.With(g, v)
    ensures r.filters.Get(g) == v && forall h: Field :: h != g ==> r.filters.Get(h) == s.filters.Get(h)
    ensures s.fetch.data.Some? && s.filters.Get(g) != v ==>
      r.currentPage == 1 && r.filtered == Filter(s.fetch.data.value, r.filters)
    ensures s.filters.Get(g) == v ==> r == s
    ensures s.fetch.data.None? ==> r == s.(filters := s.filters.With(g, v))
    ensures r.fetch == s.fetch && r.mainQuery == s.mainQuery && r.itemsPerPage == s.itemsPerPage
    ensures r.openDialog == s.openDialog && r.selected == s.selected
  {
    if s.filters.Get(g) == v then
      WithCurrentValue(s.filters, g);
      s
    else Recompute(s.(filters := s.filters.With(g, v)))
  }

  /** The main search input's `onChange`; no effect depends on it. */
  function SetMainQuery(s: PageState, text: string): (r: PageState)
    ensures r.mainQuery == text
    ensures r.fetch == s.fetch && r.filters == s.filters && r.filtered == s.filtered
    ensures r.currentPage == s.currentPage && r.itemsPerPage == s.itemsPerPage
    ensures r.openDialog == s.openDialog && r.selected == s.selected
  {
    s.(mainQuery := text)
  }

  /** `handlePageChange(k)`: the page moves to `k` only when `k` is a page. */
  function HandlePageChange(s: PageState, k: int): (r: PageState)
    ensures 1 <= k <= s.TotalPagesOf() ==> r == s.(currentPage := k)
    ensures !(1 <= k <= s.TotalPagesOf()) ==> r == s
  {
    s.(currentPage := GuardedPage(s.currentPage, k, s.TotalPagesOf()))
  }

  function GoToFirstPage(s: PageState): PageState {
    HandlePageChange(s, 1)
  }

  function GoToPreviousPage(s: PageState): PageState {
    HandlePageChange(s, s.currentPage - 1)
  }

  function GoToNextPage(s: PageState): PageState {
    HandlePageChange(s, s.currentPage + 1)
  }

  function GoToLastPage(s: PageState): PageState {
    HandlePageChange(s, s.TotalPagesOf())
  }

  /** `handleItemsPerPageChange`: the selector only offers the page sizes. */
  function HandleItemsPerPageChange(s: PageState, n: PageSize): (r: PageState)
    ensures r.itemsPerPage == n && r.currentPage == 1
    ensures r.filters == s.filters && r.filtered == s.filtered && r.fetch == s.fetch
    ensures r.mainQuery == s.mainQuery && r.openDialog == s.openDialog && r.selected == s.selected
  {
    s.(itemsPerPage := n, currentPage := 1)
  }

  /** `handleMainFilterSearch`: starts a request for the main search text
      and goes back to page 1. Returns the state and the requested URL. */
  function HandleMainFilterSearch(cfg: Config, s: PageState): (r: (PageState, string))
    ensures r.1 == RequestUrl(cfg, Some(s.mainQuery))
    ensures r.0.fetch.loading && r.0.fetch.error == None && r.0.fetch.data == s.fetch.data
    ensures r.0.currentPage == 1
    ensures r.0.filters == s.filters && r.0.filtered == s.filtered && r.0.mainQuery == s.mainQuery
    ensures r.0.itemsPerPage == s.itemsPerPage && r.0.openDialog == s.openDialog && r.0.selected == s.selected
  {
    (s.(fetch := Begin(s.fetch), currentPage := 1), RequestUrl(cfg, Some(s.mainQuery)))
  }

  /** A request started by `fetchData` ends with outcome `o`. A new record
      set triggers the recompute effect. */
  function FetchSettled(s: PageState, o: Outcome): (r: PageState)
    ensures r.fetch == Settle(s.fetch, o)
    ensures Succeeded(o) ==> r.currentPage == 1 && r.filtered == Filter(o.body.value, s.filters)
    ensures !Succeeded(o) ==> r == s.(fetch := Settle(s.fetch, o))
    ensures r.filters == s.filters && r.mainQuery == s.mainQuery && r.itemsPerPage == s.itemsPerPage
    ensures r.openDialog == s.openDialog && r.selected == s.selected
  {
    var settled := s.(fetch := Settle(s.fetch, o));
    if Succeeded(o) then Recompute(settled) else settled
  }

  /** `handleOpenDialog(property)`. */
  function HandleOpenDialog(s: PageState, p: Property): (r: PageState)
    ensures r.openDialog && r.selected == Some(p)
    ensures r.fetch == s.fetch && r.filters == s.filters && r.mainQuery == s.mainQuery
    ensures r.filtered == s.filtered && r.currentPage == s.currentPage && r.itemsPerPage == s.itemsPerPage
  {
    s.(selected := Some(p), openDialog := true)
  }

  /** `handleCloseDialog()`. */
  function HandleCloseDialog(s: PageState): (r: PageState)
    ensures !r.openDialog && r.selected == None
    ensures r.fetch == s.fetch && r.filters == s.filters && r.mainQuery == s.mainQuery
    ensures r.filtered == s.filtered && r.currentPage == s.currentPage && r.itemsPerPage == s.itemsPerPage
  {
    s.(openDialog := false, selected := None)
  }

  /** Everything the user or the network can do to the page. */
  datatype Event =
    | EditFilter(field: Field, value: string)
    | EditMainQuery(text: string)
    | PageChange(target: int)
    | FirstPage
    | PreviousPage
    | NextPage
    | LastPage
    | PageSizeChange(size: PageSize)
    | MainSearch
    | RequestSettled(outcome: Outcome)
    | OpenDialog(property: Property)
    | CloseDialog

  function Step(cfg: Config, s: PageState, e: Event): PageState {
    match e
    case EditFilter(g, v) => SetFilter(s, g, v)
    case EditMainQuery(t) => SetMainQuery(s, t)
    case PageChange(k) => HandlePageChange(s, k)
    case FirstPage => GoToFirstPage(s)
    case PreviousPage => GoToPreviousPage(s)
    case NextPage => GoToNextPage(s)
    case LastPage => GoToLastPage(s)
    case PageSizeChange(n) => HandleItemsPerPageChange(s, n)
    case MainSearch => HandleMainFilterSearch(cfg, s).0
    case RequestSettled(o) => FetchSettled(s, o)
    case OpenDialog(p) => HandleOpenDialog(s, p)
    case CloseDialog => HandleCloseDialog(s)
  }

  /** The state after the events `es`, applied in order. */
  function Run(cfg: Config, s: PageState, es: seq<Event>): PageState
    decreases |es|
  {
    if |es| == 0 then s else Run(cfg, Step(cfg, s, es[0]), es[1..])
  }

  /** The page is one of `1..max(1, totalPages)`. */
  predicate PageInRange(s: PageState) {
    1 <= s.currentPage <= Max1(s.TotalPagesOf())
  }

  /** The filtered list is what the filter yields on the loaded data, and
      empty before any data arrived. */
  predicate FilteredConsistent(s: PageState) {
    if s.fetch.data.Some? then s.filtered == Filter(s.fetch.data.value, s.filters)
    else s.filtered == []
  }

  predicate Valid(s: PageState) {
    PageInRange(s) && FilteredConsistent(s)
  }

  lemma MountValid(cfg: Config)
    ensures Valid(Mount(cfg).0)
  {
  }

  /** Every transition keeps the page in range and the filtered list in step
      with the data and the filters. */
  lemma StepPreservesValid(cfg: Config, s: PageState, e: Event)
    requires Valid(s)
    ensures Valid(Step(cfg, s, e))
  {
    match e
    case EditFilter(g, v) => SetFilterValid(s, g, v);
    case PageChange(k) => PageChangeValid(s, k);
    case FirstPage => PageChangeValid(s, 1);
    case PreviousPage => PageChangeValid(s, s.currentPage - 1);
    case NextPage => PageChangeValid(s, s.currentPage + 1);
    case LastPage => PageChangeValid(s, s.TotalPagesOf());
    case RequestSettled(o) => FetchSettledValid(s, o);
    case _ =>
  }

  lemma PageChangeValid(s: PageState, k: int)
    requires Valid(s)
    ensures Valid(HandlePageChange(s, k))
  {
    GuardedPageInRange(s.currentPage, k, s.TotalPagesOf());
  }

  lemma SetFilterValid(s: PageState, g: Field, v: string)
    requires Valid(s)
    ensures Valid(SetFilter(s, g, v))
  {
  }

  lemma FetchSettledValid(s: PageState, o: Outcome)
    requires Valid(s)
    ensures Valid(FetchSettled(s, o))
  {
  }

  lemma {:induction false} RunPreservesValid(cfg: Config, s: PageState, es: seq<Event>)
    requires Valid(s)
    ensures Valid(Run(cfg, s, es))
    decreases |es|
  {
    if |es| > 0 {
      StepPreservesValid(cfg, s, es[0]);
      RunPreservesValid(cfg, Step(cfg, s, es[0]), es[1..]);
    }
  }

  /** In every state reachable from mounting the page: the page number is in
      `[1, max(1, totalPages)]`; the filtered list is an order-preserving
      sub-sequence of the loaded data; the current page shows at most
      `itemsPerPage` records, and shows something exactly when the filtered
      list is non-empty. */
  lemma Reachable(cfg: Config, es: seq<Event>)
    ensures var s := Run(cfg, Mount(cfg).0, es);
      && 1 <= s.currentPage <= Max1(s.TotalPagesOf())
      && (s.fetch.data.Some? ==> IsSubsequence(s.filtered, s.fetch.data.value))
      && (s.fetch.data.Some? ==> forall p :: p in s.filtered ==> p in s.fetch.data.value && Matches(p, s.filters))
      && (s.fetch.data.None? ==> s.filtered == [])
      && |s.CurrentItems()| <= s.itemsPerPage
      && (s.CurrentItems() != [] <==> s.filtered != [])
  {
    MountValid(cfg);
    RunPreservesValid(cfg, Mount(cfg).0, es);
    var s := Run(cfg, Mount(cfg).0, es);
    if s.fetch.data.Some? {
      FilterIsSubsequence(s.fetch.data.value, s.filters);
    }
    WindowIsBlock(s.filtered, s.currentPage, s.itemsPerPage);
    WindowNonEmptyIff(s.filtered, s.currentPage, s.itemsPerPage);
  }

  /** With no pages every navigation is a no-op. */
  lemma NoPagesNoNavigation(s: PageState, k: int)
    requires s.TotalPagesOf() == 0
    ensures HandlePageChange(s, k) == s
    ensures GoToFirstPage(s) == s && GoToPreviousPage(s) == s
    ensures GoToNextPage(s) == s && GoToLastPage(s) == s
  {
  }

  /** Previous from page 1 and next from the last page are no-ops; first and
      last land on 1 and on the page count whenever there is a page. */
  lemma NavigationBoundaries(s: PageState)
    ensures s.currentPage == 1 ==> GoToPreviousPage(s) == s
    ensures s.currentPage == s.TotalPagesOf() ==> GoToNextPage(s) == s
    ensures s.TotalPagesOf() > 0 ==> GoToFirstPage(s).currentPage == 1
    ensures s.TotalPagesOf() > 0 ==> GoToLastPage(s).currentPage == s.TotalPagesOf()
    ensures GoToNextPage(GoToLastPage(s)) == GoToLastPage(s)
  {
  }

  /** Asking for the same page twice is the same as asking once. */
  lemma PageChangeIdempotent(s: PageState, k: int)
    ensures HandlePageChange(HandlePageChange(s, k), k) == HandlePageChange(s, k)
  {
  }

  /** Twelve filtered records at five per page make three pages: page 4 is
      refused and "last" goes to page 3. */
  lemma TwelveItemsScenario(s: PageState)
    requires |s.filtered| == 12 && s.itemsPerPage == 5
    ensures s.TotalPagesOf() == 3
    ensures HandlePageChange(s, 4) == s
    ensures GoToLastPage(s).currentPage == 3
  {
  }

  /** Neither a page-size change nor a main search touches the six filters,
      and both go back to page 1. */
  lemma ResetsKeepFilters(cfg: Config, s: PageState, n: PageSize, g: Field)
    ensures HandleItemsPerPageChange(s, n).filters.Get(g) == s.filters.Get(g)
    ensures HandleMainFilterSearch(cfg, s).0.filters.Get(g) == s.filters.Get(g)
    ensures HandleItemsPerPageChange(s, n).currentPage == 1
    ensures HandleMainFilterSearch(cfg, s).0.currentPage == 1
  {
  }

  /** A main search followed by a successful response: the URL carries the
      search text when it is non-empty, the new record set replaces the old
      one, the per-field filters still apply to it, and the page is 1. */
  lemma MainSearchThenSuccess(cfg: Config, s: PageState, status: int, body: seq<Property>)
    requires IsOk(status)
    ensures var (started, url) := HandleMainFilterSearch(cfg, s);
      var r := FetchSettled(started, Responded(status, Success(body)));
      && (s.mainQuery != "" ==> url == cfg.apiUrl + FilteredPath + cfg.encode(s.mainQuery))
      && (s.mainQuery == "" ==> url == cfg.apiUrl)
      && r.fetch == FetchState(Some(body), false, None)
      && r.filtered == Filter(body, s.filters)
      && r.currentPage == 1
      && r.filters == s.filters
  {
  }

  /** Typing into the main search input changes nothing but the text, and
      the next main search requests exactly that text. */
  lemma TypedTextIsSearched(cfg: Config, s: PageState, text: string)
    ensures HandleMainFilterSearch(cfg, SetMainQuery(s, text)).1 == RequestUrl(cfg, Some(text))
    ensures HandleMainFilterSearch(cfg, SetMainQuery(s, text)).0.filters == s.filters
    ensures Valid(s) ==> Valid(SetMainQuery(s, text))
  {
  }

  /** A failed request keeps the previous data and filtered list and sets
      the error; only `loading` and `error` change. */
  lemma FailureKeepsData(s: PageState, o: Outcome)
    requires !Succeeded(o) && !o.Aborted?
    ensures var r := FetchSettled(s, o);
      && r.fetch.error.Some? && !r.fetch.loading
      && r.fetch.data == s.fetch.data && r.filtered == s.filtered && r.currentPage == s.currentPage
  {
  }

  /** Opening and then closing the dialog leaves the page as closing alone
      would; from a closed dialog it restores the page exactly. */
  lemma DialogRoundTrip(s: PageState, p: Property)
    ensures HandleCloseDialog(HandleOpenDialog(s, p)) == HandleCloseDialog(s)
    ensures !s.openDialog && s.selected == None ==> HandleCloseDialog(HandleOpenDialog(s, p)) == s
  {
  }
}

=== FILE: records.dfy ===
/** Property records and the client-side record filter of the principal page
    (src/components/PrincipalPage.jsx, the recompute effect). */
module Records {
  import opened Wrappers
  import opened Text
  import opened Seqs

  /** `location` of a record. A missing member is `None` (JavaScript
      `undefined` or `null`). */
  datatype Location = Location(country: Option<string>, city: Option<string>, address: Option<string>)

  /** One property listing as decoded from the remote service. `price` holds
      the text `String(price)` of a truthy price and `None` for any falsy one
      (`null`, `undefined`, `0`, `""`); `features` is only ever displayed. */
  datatype Property = Property(
    id: int,
    name: Option<string>,
    description: Option<string>,
    price: Option<string>,
    img: Option<string>,
    location: Option<Location>,
    features: seq<string>)

  /** `item?.location?.country` and its siblings. */
  function CountryOf(p: Property): Option<string> {
    if p.location.Some? then p.location.value.country else None
  }

  function CityOf(p: Property): Option<string> {
    if p.location.Some? then p.location.value.city else None
  }

  function AddressOf(p: Property): Option<string> {
    if p.location.Some? then p.location.value.address else None
  }

  /** `String(item?.price || '')`. */
  function PriceText(price: Option<string>): string {
    price.GetOr("")
  }

  /** The six per-field filter inputs. */
  datatype Field = Name | Description | Price | Country | City | Address

  datatype Filters = Filters(
    name: string, description: string, price: string,
    country: string, city: string, address: string)
  {
    function Get(f: Field): string {
      match f
      case Name => name
      case Description => description
      case Price => price
      case Country => country
      case City => city
      case Address => address
    }

    /** Replaces the value of one filter; the other five keep theirs. */
    function With(f: Field, v: string): (r: Filters)
      ensures r.Get(f) == v
      ensures forall g: Field :: g != f ==> r.Get(g) == Get(g)
    {
      match f
      case Name => this.(name := v)
      case Description => this.(description := v)
      case Price => this.(price := v)
      case Country => this.(country := v)
      case City => this.(city := v)
      case Address => this.(address := v)
    }
  }

  /** Writing a filter's own value back changes nothing. */
  lemma WithCurrentValue(f: Filters, g: Field)
    ensures f.With(g, f.Get(g)) == f
  {
  }

  /** All six filters at their initial value, the empty string. */
  const NoFilters := Filters("", "", "", "", "", "")

  /** `v?.toLowerCase()?.includes(filter.toLowerCase() || '')`: a missing
      value yields `undefined`, which rejects the record whatever the filter. */
  predicate TextMatches(v: Option<string>, filter: string) {
    v.Some? && Contains(Lower(v.value), Lower(filter))
  }

  /** The predicate passed to `data.filter`: every conjunct must hold. The
      price is compared raw, without case folding. */
  predicate Matches(p: Property, f: Filters) {
    && TextMatches(p.name, f.name)
    && TextMatches(p.description, f.description)
    && Contains(PriceText(p.price), f.price)
    && TextMatches(CountryOf(p), f.country)
    && TextMatches(CityOf(p), f.city)
    && TextMatches(AddressOf(p), f.address)
  }

  /** The test `Matches` with the filters fixed, as handed to `data.filter`. */
  function MatchesFilter(f: Filters): Property -> bool {
    p => Matches(p, f)
  }

  /** `data.filter(item => Matches(item, filters))`. */
  function Filter(d: seq<Property>, f: Filters): (r: seq<Property>)
    ensures |r| <= |d|
    ensures forall p :: p in r <==> p in d && Matches(p, f)
    ensures forall i :: 0 <= i < |r| ==> Matches(r[i], f)
  {
    Keep(d, MatchesFilter(f))
  }

  /** Every matching record is kept as many times as it occurs in `d`, and
      no other record is kept at all. */
  lemma FilterCounts(d: seq<Property>, f: Filters)
    ensures forall p :: multiset(Filter(d, f))[p] == if Matches(p, f) then multiset(d)[p] else 0
  {
    forall p ensures multiset(Filter(d, f))[p] == if Matches(p, f) then multiset(d)[p] else 0 {
      KeepCount(d, MatchesFilter(f), p);
    }
  }

  /** The filtered list keeps the records of `d` in their original order. */
  lemma FilterIsSubsequence(d: seq<Property>, f: Filters)
    ensures IsSubsequence(Filter(d, f), d)
  {
    KeepIsSubsequence(d, MatchesFilter(f));
  }

  /** The filter keeps everything exactly when every record matches. */
  lemma FilterKeepsAllIff(d: seq<Property>, f: Filters)
    ensures Filter(d, f) == d <==> forall i :: 0 <= i < |d| ==> Matches(d[i], f)
  {
    if forall i :: 0 <= i < |d| ==> Matches(d[i], f) {
      KeepAll(d, MatchesFilter(f));
    }
  }

  /** A record with name, description and the three location members
      present. */
  predicate HasAllTextFields(p: Property) {
    p.name.Some? && p.description.Some? && CountryOf(p).Some? && CityOf(p).Some? && AddressOf(p).Some?
  }

  /** With all six filters empty, a list of complete records passes unchanged
      (whatever their prices, since every string includes `""`). */
  lemma NoFiltersKeepCompleteRecords(d: seq<Property>)
    requires forall i :: 0 <= i < |d| ==> HasAllTextFields(d[i])
    ensures Filter(d, NoFilters) == d
  {
    forall i | 0 <= i < |d| ensures Matches(d[i], NoFilters) {
      var p := d[i];
      ContainsTrivial(Lower(p.name.value));
      ContainsTrivial(Lower(p.description.value));
      ContainsTrivial(PriceText(p.price));
      ContainsTrivial(Lower(CountryOf(p).value));
      ContainsTrivial(Lower(CityOf(p).value));
      ContainsTrivial(Lower(AddressOf(p).value));
    }
    FilterKeepsAllIff(d, NoFilters);
  }

  /** A record lacking any compared text member is never kept, whatever the
      six filter values are. */
  lemma IncompleteRecordExcluded(d: seq<Property>, f: Filters, p: Property)
    requires !HasAllTextFields(p)
    ensures !Matches(p, f)
    ensures p !in Filter(d, f)
  {
  }

  /** A falsy price passes the price test exactly when the price filter is
      empty; the comparison is on the raw text, so a truthy price passes
      exactly when its text includes the filter verbatim. */
  lemma PriceTestIsRaw(price: Option<string>, filter: string)
    ensures price.None? ==> (Contains(PriceText(price), filter) <==> filter == "")
    ensures price.Some? ==> (Contains(PriceText(price), filter) <==> Contains(price.value, filter))
  {
    if price.None? {
      ContainsInEmpty(filter);
    }
  }

  /** Every filter of `f2` includes the corresponding filter of `f1`. */
  predicate Tighter(f2: Filters, f1: Filters) {
    forall g: Field :: Contains(f2.Get(g), f1.Get(g))
  }

  lemma TextMatchesNarrow(v: Option<string>, t2: string, t1: string)
    requires Contains(t2, t1) && TextMatches(v, t2)
    ensures TextMatches(v, t1)
  {
    LowerPreservesContains(t2, t1);
    ContainsTransitive(Lower(v.value), Lower(t2), Lower(t1));
  }

  /** A record that passes tighter filters passes the looser ones. */
  lemma MatchesNarrow(p: Property, f2: Filters, f1: Filters)
    requires Tighter(f2, f1) && Matches(p, f2)
    ensures Matches(p, f1)
  {
    assert Contains(f2.Get(Name), f1.Get(Name));
    assert Contains(f2.Get(Description), f1.Get(Description));
    assert Contains(f2.Get(Price), f1.Get(Price));
    assert Contains(f2.Get(Country), f1.Get(Country));
    assert Contains(f2.Get(City), f1.Get(City));
    assert Contains(f2.Get(Address), f1.Get(Address));
    TextMatchesNarrow(p.name, f2.name, f1.name);
    TextMatchesNarrow(p.description, f2.description, f1.description);
    ContainsTransitive(PriceText(p.price), f2.price, f1.price);
    TextMatchesNarrow(CountryOf(p), f2.country, f1.country);
    TextMatchesNarrow(CityOf(p), f2.city, f1.city);
    TextMatchesNarrow(AddressOf(p), f2.address, f1.address);
  }

  /** Filtering is monotone: tighter filters keep a sub-sequence of what the
      looser ones keep, and so never more records. */
  lemma FilterMonotone(d: seq<Property>, f2: Filters, f1: Filters)
    requires Tighter(f2, f1)
    ensures IsSubsequence(Filter(d, f2), Filter(d, f1))
    ensures |Filter(d, f2)| <= |Filter(d, f1)|
  {
    forall p | MatchesFilter(f2)(p) ensures MatchesFilter(f1)(p) {
      MatchesNarrow(p, f2, f1);
    }
    KeepMonotone(d, MatchesFilter(f2), MatchesFilter(f1));
    SubsequenceLength(Filter(d, f2), Filter(d, f1));
  }

  /** Typing more characters at the end of one filter input never grows the
      filtered list. */
  lemma AppendToFilterNeverGrows(d: seq<Property>, f: Filters, g: Field, suffix: string)
    ensures IsSubsequence(Filter(d, f.With(g, f.Get(g) + suffix)), Filter(d, f))
    ensures |Filter(d, f.With(g, f.Get(g) + suffix))| <= |Filter(d, f)|
  {
    var f2 := f.With(g, f.Get(g) + suffix);
    forall h: Field ensures Contains(f2.Get(h), f.Get(h)) {
      if h == g {
        assert f.Get(g) <= f.Get(g) + suffix;
      } else {
        ContainsTrivial(f.Get(h));
      }
    }
    FilterMonotone(d, f2, f);
  }

  /** Two listings; `withDescriptions` decides whether they carry a
      description. */
  function SampleListings(withDescriptions: bool): seq<Property> {
    var desc: Option<string> := if withDescriptions then Some("") else None;
    [ Property(1, Some("Casa Sol"), desc, Some("100"), None,
               Some(Location(Some("Peru"), Some("Lima"), Some("Av 1"))), []),
      Property(2, Some("Depto Luna"), desc, Some("200"), None,
               Some(Location(Some("Peru"), Some("Cusco"), Some("Av 2"))), []) ]
  }

  lemma SampleFirstMatches()
    ensures Matches(SampleListings(true)[0], NoFilters.With(Name, "casa"))
  {
    var p := SampleListings(true)[0];
    CasaSolMatchesCasa();
    assert p.name == Some("Casa Sol");
    NameFilterOnly(p, "casa");
  }

  lemma CasaSolMatchesCasa()
    ensures TextMatches(Some("Casa Sol"), "casa")
  {
    LowerCasaSol();
    LowerCasa();
    assert "casa" <= "casa sol";
    PrefixMatches("Casa Sol", "casa", "casa sol", "casa");
  }

  lemma LowerCasa()
    ensures Lower("casa") == "casa"
  {
    LowerIs("casa", "casa");
  }

  lemma LowerCasaSol()
    ensures Lower("Casa Sol") == "casa sol"
  {
    CasaSolParts();
    LowerCapitalCasa();
    LowerSol();
    LowerConcat("Casa", " Sol");
  }

  lemma CasaSolParts()
    ensures "Casa Sol" == "Casa" + " Sol" && "casa sol" == "casa" + " sol"
  {
  }

  lemma LowerCapitalCasa()
    ensures Lower("Casa") == "casa"
  {
    LowerIs("Casa", "casa");
  }

  lemma LowerSol()
    ensures Lower(" Sol") == " sol"
  {
    LowerIs(" Sol", " sol");
  }

  /** A value whose lower-cased text starts with the lower-cased filter
      passes that filter. */
  lemma PrefixMatches(v: string, t: string, lv: string, lt: string)
    requires Lower(v) == lv && Lower(t) == lt && lt <= lv
    ensures TextMatches(Some(v), t)
  {
  }

  /** A complete record passes the name filter alone exactly when its name
      does. */
  lemma NameFilterOnly(p: Property, name: string)
    requires HasAllTextFields(p) && TextMatches(p.name, name)
    ensures Matches(p, NoFilters.With(Name, name))
  {
    ContainsTrivial(Lower(p.description.value));
    ContainsTrivial(PriceText(p.price));
    ContainsTrivial(Lower(CountryOf(p).value));
    ContainsTrivial(Lower(CityOf(p).value));
    ContainsTrivial(Lower(AddressOf(p).value));
    assert Lower("") == "";
  }

  lemma DeptoLunaLacksCasa()
    ensures !Contains(Lower("Depto Luna"), Lower("casa"))
  {
    LowerMissingFirstChar("Depto Luna", "casa");
  }

  lemma SampleSecondRejected()
    ensures !Matches(SampleListings(true)[1], NoFilters.With(Name, "casa"))
  {
    DeptoLunaLacksCasa();
    assert SampleListings(true)[1].name == Some("Depto Luna");
  }

  /** The name filter "casa" matches "Casa Sol" but not "Depto Luna", case
      insensitively; listings without a description are all rejected, even
      though the description filter is empty. */
  lemma NameFilterScenario()
    ensures Filter(SampleListings(true), NoFilters.With(Name, "casa")) == [SampleListings(true)[0]]
    ensures Filter(SampleListings(false), NoFilters.With(Name, "casa")) == []
  {
    var f := NoFilters.With(Name, "casa");
    var d := SampleListings(true);
    SampleFirstMatches();
    SampleSecondRejected();
    FilterPair(d[0], d[1], f);
    assert d == [d[0], d[1]];
    var e := SampleListings(false);
    FilterPair(e[0], e[1], f);
    assert e == [e[0], e[1]];
    assert e[0].description == None && e[1].description == None;
  }

  lemma FilterPair(a: Property, b: Property, f: Filters)
    ensures Filter([a, b], f) == (if Matches(a, f) then [a] else []) + (if Matches(b, f) then [b] else [])
  {
    var k := MatchesFilter(f);
    assert k(a) == Matches(a, f) && k(b) == Matches(b, f);
    assert [a, b][1..] == [b];
    assert [b][1..] == [];
    assert Keep([b], k) == (if k(b) then [b] else []);
  }
}

=== FILE: seqs.dfy ===
/** Order-preserving sub-sequences, and `filter` over an arbitrary test. */
module Seqs {

  /** `a` is obtained from `b` by deleting zero or more elements, keeping the
      relative order of the rest. */
  predicate IsSubsequence<T(==)>(a: seq<T>, b: seq<T>)
    decreases |b|
  {
    || |a| == 0
    || (&& |b| > 0
        && (|| (a[0] == b[0] && IsSubsequence(a[1..], b[1..]))
            || IsSubsequence(a, b[1..])))
  }

  /** A sub-sequence is never longer than the sequence it is taken from. */
  lemma {:induction false} SubsequenceLength<T>(a: seq<T>, b: seq<T>)
    requires IsSubsequence(a, b)
    ensures |a| <= |b|
    decreases |b|
  {
    if |a| > 0 {
      if a[0] == b[0] && IsSubsequence(a[1..], b[1..]) {
        SubsequenceLength(a[1..], b[1..]);
      } else {
        SubsequenceLength(a, b[1..]);
      }
    }
  }

  /** The elements of `s` for which `keep` holds, in their original order. */
  function Keep<T(==,!new)>(s: seq<T>, keep: T -> bool): (r: seq<T>)
    ensures |r| <= |s|
    ensures forall x :: x in r <==> x in s && keep(x)
    ensures forall i :: 0 <= i < |r| ==> keep(r[i])
  {
    if |s| == 0 then []
    else if keep(s[0]) then [s[0]] + Keep(s[1..], keep)
    else Keep(s[1..], keep)
  }

  /** Every kept element occurs as often as in `s`; the others not at all. */
  lemma {:induction false} KeepCount<T(!new)>(s: seq<T>, keep: T -> bool, x: T)
    ensures multiset(Keep(s, keep))[x] == if keep(x) then multiset(s)[x] else 0
    decreases |s|
  {
    if |s| > 0 {
      var rest := Keep(s[1..], keep);
      KeepCount(s[1..], keep, x);
      assert s == [s[0]] + s[1..];
      assert multiset(s)[x] == multiset([s[0]])[x] + multiset(s[1..])[x];
      if keep(s[0]) {
        assert multiset(Keep(s, keep)) == multiset([s[0]]) + multiset(rest);
      }
    }
  }

  lemma {:induction false} KeepIsSubsequence<T(!new)>(s: seq<T>, keep: T -> bool)
    ensures IsSubsequence(Keep(s, keep), s)
    decreases |s|
  {
    if |s| > 0 {
      KeepIsSubsequence(s[1..], keep);
      if keep(s[0]) {
        assert Keep(s, keep)[1..] == Keep(s[1..], keep);
      }
    }
  }

  /** When every element passes, nothing is dropped. */
  lemma {:induction false} KeepAll<T(!new)>(s: seq<T>, keep: T -> bool)
    requires forall i :: 0 <= i < |s| ==> keep(s[i])
    ensures Keep(s, keep) == s
    decreases |s|
  {
    if |s| > 0 {
      var tail := s[1..];
      forall i | 0 <= i < |tail| ensures keep(tail[i]) {
        assert tail[i] == s[i + 1];
      }
      KeepAll(tail, keep);
      assert keep(s[0]);
      assert s == [s[0]] + tail;
    }
  }

  /** A stricter test keeps a sub-sequence of what a looser one keeps. */
  lemma {:induction false} KeepMonotone<T(!new)>(s: seq<T>, strict: T -> bool, loose: T -> bool)
    requires forall x :: strict(x) ==> loose(x)
    ensures IsSubsequence(Keep(s, strict), Keep(s, loose))
    decreases |s|
  {
    if |s| > 0 {
      KeepMonotone(s[1..], strict, loose);
      if strict(s[0]) {
        assert Keep(s, strict)[1..] == Keep(s[1..], strict);
        assert Keep(s, loose)[1..] == Keep(s[1..], loose);
      } else if loose(s[0]) {
        assert Keep(s, loose)[1..] == Keep(s[1..], loose);
      }
    }
  }
}

=== FILE: text.dfy ===
/** The two string operations the record filter relies on:
    `String.prototype.includes` and `String.prototype.toLowerCase`. */
module Text {

  /** Case mapping of one character. Only the ASCII letters are mapped; the
      full Unicode table of `toLowerCase` is not part of this model. */
  function LowerChar(c: char): (r: char)
    ensures 'A' <= c <= 'Z' ==> 'a' <= r <= 'z' && r as int - c as int == 32
    ensures !('A' <= c <= 'Z') ==> r == c
  {
    if 'A' <= c <= 'Z' then (c as int + 32) as char else c
  }

  /** `s.toLowerCase()`, character by character. */
  function Lower(s: string): (r: string)
    ensures |r| == |s|
    ensures forall i :: 0 <= i < |s| ==> r[i] == LowerChar(s[i])
    ensures forall i :: 0 <= i < |r| ==> !('A' <= r[i] <= 'Z')
  {
    if |s| == 0 then [] else [LowerChar(s[0])] + Lower(s[1..])
  }

  /** `s.includes(t)`: some position of `s` starts a copy of `t`. The empty
      string is included in every string. */
  predicate Contains(s: string, t: string)
    decreases |s|
  {
    t <= s || (|s| > 0 && Contains(s[1..], t))
  }

  /** `t` occurs in `s` starting at index `i`. */
  ghost predicate OccursAt(s: string, t: string, i: int) {
    0 <= i && i + |t| <= |s| && s[i..i + |t|] == t
  }

  lemma {:induction false} OccursImpliesContains(s: string, t: string, i: int)
    requires OccursAt(s, t, i)
    ensures Contains(s, t)
    decreases i
  {
    if i > 0 {
      assert s[1..][i - 1..i - 1 + |t|] == s[i..i + |t|];
      OccursImpliesContains(s[1..], t, i - 1);
    }
  }

  lemma {:induction false} ContainsImpliesOccurs(s: string, t: string)
    requires Contains(s, t)
    ensures exists i :: OccursAt(s, t, i)
    decreases |s|
  {
    if t <= s {
      assert OccursAt(s, t, 0);
    } else {
      ContainsImpliesOccurs(s[1..], t);
      var j :| OccursAt(s[1..], t, j);
      assert s[1..][j..j + |t|] == s[j + 1..j + 1 + |t|];
      assert OccursAt(s, t, j + 1);
    }
  }

  /** The recursive `Contains` agrees with the positional definition of
      substring containment, in both directions. */
  lemma ContainsIff(s: string, t: string)
    ensures Contains(s, t) <==> exists i :: OccursAt(s, t, i)
  {
    if Contains(s, t) {
      ContainsImpliesOccurs(s, t);
    } else if i :| OccursAt(s, t, i) {
      OccursImpliesContains(s, t, i);
    }
  }

  /** Every string includes the empty string and itself. */
  lemma ContainsTrivial(s: string)
    ensures Contains(s, "")
    ensures Contains(s, s)
  {
  }

  /** Only the empty string is included in the empty string. */
  lemma ContainsInEmpty(t: string)
    ensures Contains("", t) <==> t == ""
  {
  }

  /** Substring containment is transitive. */
  lemma {:induction false} ContainsTransitive(a: string, b: string, c: string)
    requires Contains(a, b) && Contains(b, c)
    ensures Contains(a, c)
  {
    ContainsImpliesOccurs(a, b);
    ContainsImpliesOccurs(b, c);
    var i :| OccursAt(a, b, i);
    var j :| OccursAt(b, c, j);
    forall k | 0 <= k < |c|
      ensures a[i + j..i + j + |c|][k] == c[k]
    {
      assert c[k] == b[j + k] == a[i + j + k];
    }
    assert a[i + j..i + j + |c|] == c;
    OccursImpliesContains(a, c, i + j);
  }

  /** Lower-casing both sides keeps an occurrence an occurrence. */
  lemma {:induction false} LowerPreservesContains(s: string, t: string)
    requires Contains(s, t)
    ensures Contains(Lower(s), Lower(t))
    decreases |s|
  {
    if t <= s {
      LowerPreservesPrefix(s, t);
    } else {
      LowerPreservesContains(s[1..], t);
      LowerTail(s);
    }
  }

  /** Lower-casing both sides keeps a prefix a prefix. */
  lemma LowerPreservesPrefix(s: string, t: string)
    requires t <= s
    ensures Lower(t) <= Lower(s)
  {
    assert s == t + s[|t|..];
    LowerConcat(t, s[|t|..]);
  }

  /** Dropping the first character commutes with lower-casing. */
  lemma LowerTail(s: string)
    requires |s| > 0
    ensures Lower(s)[1..] == Lower(s[1..])
  {
  }

  /** Lower-casing works piece by piece. */
  lemma {:induction false} LowerConcat(a: string, b: string)
    ensures Lower(a + b) == Lower(a) + Lower(b)
    decreases |a|
  {
    if |a| > 0 {
      assert (a + b)[1..] == a[1..] + b;
      LowerConcat(a[1..], b);
      assert (a + b)[0] == a[0];
    } else {
      assert a + b == b;
    }
  }

  /** A needle whose first character never occurs in `s` is not included in
      `s`. */
  lemma {:induction false} MissingFirstCharNotContained(s: string, t: string)
    requires |t| > 0 && t[0] !in s
    ensures !Contains(s, t)
    decreases |s|
  {
    if |s| > 0 {
      assert s[0] != t[0];
      assert forall c :: c in s[1..] ==> c in s;
      MissingFirstCharNotContained(s[1..], t);
    }
  }

  /** `Lower(s)` is `t` when `t` is `s` mapped character by character. */
  lemma LowerIs(s: string, t: string)
    requires |s| == |t| && forall i :: 0 <= i < |s| ==> LowerChar(s[i]) == t[i]
    ensures Lower(s) == t
  {
  }

  /** Case-insensitively, a needle whose first letter does not occur in `s`
      is not included in `s`. */
  lemma LowerMissingFirstChar(s: string, t: string)
    requires |t| > 0
    requires forall k :: 0 <= k < |s| ==> LowerChar(s[k]) != LowerChar(t[0])
    ensures !Contains(Lower(s), Lower(t))
  {
    MissingFirstCharNotContained(Lower(s), Lower(t));
  }
}

=== FILE: wrappers.dfy ===
/** Optional and fallible values shared by the model: `Option` stands for a
    JavaScript value that may be `null`/`undefined`, `Result` for a step that
    may fail with a message. */
module Wrappers {

  datatype Option<+T> = None | Some(value: T) {

    /** Returns the wrapped value, or `default` when there is none. */
    function GetOr(default: T): T {
      match this
      case Some(v) => v
      case None => default
    }
  }

  datatype Result<+R, +E> = Success(value: R) | Failure(error: E)
}
